=== FILE: README.md ===
# Moleculer-Java core, modelled in Dafny

This project models five sequential pieces of a distributed microservices
runtime. In that runtime, nodes discover each other by gossip and route action
calls to one another. The five pieces are:

- **Node descriptor** (`node_descriptor.dfy`): the per-node record that gossip
  merging relies on. Presence is versioned by `seq` (`seqNo` here) and load is
  versioned separately by `cpuSeq`. Each Java mutator is a pure transition that
  returns the new record, the boolean the Java method returns, or the exception
  it throws. The lemmas cover the following:
  - a consistency invariant that every mutator keeps;
  - monotonicity of both version counters over any sequence of calls;
  - a failed call leaves the record untouched;
  - a replayed report changes nothing.
- **Call context** (`context.dfy`): covers the lineage fixed by the three
  constructors (`level`, `parentID`, `requestID`) and the distributed timeout of
  `call`. A spent budget refuses a nested call before dispatch. Otherwise the
  forwarded timeout lies in `(0, remaining]`. Down a chain of nested calls, no
  descendant's deadline is later than its ancestor's.
- **Remote action endpoint** (`remote_action_endpoint.dfy`): the dispatch
  handler registers the pending call with its absolute deadline, then sends the
  request. It relays an attached stream as data, error and close packets
  numbered 1, 2, 3, ... with no gap or repeat, as long as every send
  succeeds. The registry and the
  transporter are modelled as the list of calls made on them.
- **XORSHIFT strategy** (`xorshift.dfy`): one xorshift step on a `bv64` state,
  then `(int) Math.abs(next % length)` with Java's signed remainder written out.
  The index is always in bounds. The step is proved invertible, so it is a
  bijection of 64-bit states.
- **CommonUtils helpers** (`common_utils.dfy`): covers `formatPath`,
  `getHostOrIP`, `parseURLs`, `parseParams` and `nameOf(prefix, field)`. Java's
  `String.trim` and `split` live in `text.dfy`. The info document (`Tree`) is
  reduced to a small record in `data_tree.dfy`. The call options (unseen
  `CallOptions`) are in `call_options.dfy`. Option, result and the
  wall-clock type are in `base.dfy`.

The wall clock is a parameter of type `Millis` (a positive integer), so
"offline since now" and "started at now" are never 0. The compare-and-set loop
of the strategy is one atomic step. Locks and `volatile` are not modelled,
because every operation is one sequential step.

Three places where the code is looser than what node registration and the gossip rules require:

- The host/port descriptor constructor rejects only a *null* host and accepts
  an empty one. A non-empty host is checked by node registration, which is not
  part of this model.
- The info constructor takes `seq` from the document without checking its
  sign. The gossip tests rely on this to build an offline descriptor with seq 0.
- `markAsOnline`'s check for an empty info block can never fire. A document
  whose `seq` passed the first check has a "seq" entry, so it is not empty.
  `NodeDescriptor.MarkAsOnlineNeverEmptyInfo` shows this.

`formatPath` is idempotent on paths without blank characters, but not in
general. For example, `"/a /"` formats to `"/a "`, which formats again to
`"/a"`. `CommonUtils.NormalPathNotIdempotentWithBlanks` shows this.

## Model

| member | source | states |
|---|---|---|
| `NodeDescriptor.Blank` | src/main/java/services/moleculer/transporter/tcp/NodeDescriptor.java:69-80 | a bare descriptor is consistent and online, with the given node id, locality and hostname preference. It has host "", port 0, seq 0, cpu 0, cpuSeq 0, cpuWhen 0 and an empty info document |
| `NodeDescriptor.FromAddress` | src/main/java/services/moleculer/transporter/tcp/NodeDescriptor.java:82-91 | a port below 1 is rejected first and then a null host. Otherwise the record has the given node id, host, port and hostname preference, is not local, has seq, cpu, cpuSeq and cpuWhen 0 and an empty info document, and is consistent and online |
| `NodeDescriptor.FromInfo` | src/main/java/services/moleculer/transporter/tcp/NodeDescriptor.java:93-109 | succeeds iff the info is present, is non-empty, names a hostname or IP, and has port ≥ 1. A null or empty info is rejected as "info required". On success the record keeps the given node id, locality and hostname preference and stores the info itself. Its host is the non-empty `getHostOrIP` choice, seq and port come from the info, and cpu, cpuSeq and cpuWhen are 0 |
| `NodeDescriptor.UpdateCpu` | src/main/java/services/moleculer/transporter/tcp/NodeDescriptor.java:113-122 | rejects cpu outside [0,100]. Otherwise it stores cpu, raises cpuSeq by exactly 1 iff the value changed, stamps cpuWhen, and leaves presence untouched |
| `NodeDescriptor.UpdateCpuSeq` | src/main/java/services/moleculer/transporter/tcp/NodeDescriptor.java:124-136 | rejects a bad cpu first, then cpuSeq < 1. It adopts (cpuSeq, cpu) only when the stored cpuSeq is strictly smaller. An equal or stale cpuSeq leaves the record identical |
| `NodeDescriptor.MarkAsOffline` | src/main/java/services/moleculer/transporter/tcp/NodeDescriptor.java:140-148 | returns true iff the node was online. It then marks the node offline as of now and bumps seq by one. The info is the old info with only its seq entry set to the new seq. Load, cpu timestamp, address and identity are kept. An offline node is returned unchanged |
| `NodeDescriptor.MarkAsOfflineSeq` | src/main/java/services/moleculer/transporter/tcp/NodeDescriptor.java:150-163 | rejects seq < 1. It adopts seq only when it is strictly larger. The node is then offline, and the info is the old info with only its seq entry replaced. Load, cpu timestamp, address and identity are kept. It returns true iff it also took the node from online to offline; in that case the offline time is now, while an old offline time is kept |
| `NodeDescriptor.MarkAsOnline` | src/main/java/services/moleculer/transporter/tcp/NodeDescriptor.java:167-193 | a null info and an info seq < 1 are errors. A newer seq needs a non-empty info, a host or IP, and port ≥ 1. It then sets seq, info, host and port, marks the node online and stamps the cpu timestamp with now. Load and identity are kept. An equal or older seq returns false with the record unchanged |
| `NodeDescriptor.MarkAsOnlineNeverEmptyInfo` | src/main/java/services/moleculer/transporter/tcp/NodeDescriptor.java:167-174 | the empty-info error of `markAsOnline` is unreachable once the seq check has passed |
| `NodeDescriptor.ApplyStep` | src/main/java/services/moleculer/transporter/tcp/NodeDescriptor.java:113-193 | every mutator keeps the record consistent and never decreases seq or cpuSeq. A call that throws leaves every field unchanged |
| `NodeDescriptor.RunEvolves` | src/main/java/services/moleculer/transporter/tcp/NodeDescriptor.java:113-193 | over any sequence of mutator calls, consistency holds and neither version counter ever decreases |
| `NodeDescriptor.UpdateCpuSeqIdempotent` | src/main/java/services/moleculer/transporter/tcp/NodeDescriptor.java:124-136 | a load report received twice changes nothing the second time |
| `NodeDescriptor.MarkAsOfflineSeqIdempotent` | src/main/java/services/moleculer/transporter/tcp/NodeDescriptor.java:150-163 | an offline report received twice changes nothing the second time |
| `NodeDescriptor.MarkAsOnlineIdempotent` | src/main/java/services/moleculer/transporter/tcp/NodeDescriptor.java:167-193 | an online report received twice returns false and changes nothing the second time |
| `NodeDescriptor.MarkAsOfflineTwice` | src/main/java/services/moleculer/transporter/tcp/NodeDescriptor.java:140-148 | a second `markAsOffline()` returns false and leaves seq where the first left it |
| `NodeDescriptor.GossipTestSequence` | src/test/java/services/moleculer/transporter/GossiperTest.java:72-156 | the test's descriptor steps: cpu 2 gives cpuSeq 1; (5,4) is adopted; the stale (4,3) is ignored; the listed bad cpu/cpuSeq values and null/empty infos are rejected; node3 goes offline with seq 2 |
| `Context.Root` | src/main/java/services/moleculer/context/Context.java:97-122 | level 1, no parent, requestID = id. The action name and the stream flag are stored as given. startTime is non-zero (= now) iff options with a positive timeout are given |
| `Context.Nested` | src/main/java/services/moleculer/context/Context.java:124-148 | level = parent level + 1, parentID = parent id, requestID = parent requestID. The action name and the stream flag are stored as given. startTime is non-zero iff a positive timeout is given |
| `Context.WithLineage` | src/main/java/services/moleculer/context/Context.java:150-173 | level, requestID, parentID, the action name and the stream flag are stored exactly as given. startTime is non-zero iff a positive timeout is given |
| `Context.Call` | src/main/java/services/moleculer/context/Context.java:269-290 | without a start time the options pass unchanged. With one, the call is refused iff remaining = timeout − elapsed ≤ 0. Otherwise the forwarded timeout is in (0, remaining]. A positive caller timeout within the budget is kept as is. In every other case the forwarded timeout is exactly remaining, with the caller's target node and retries kept |
| `Context.ChildDeadlineWithinParent` | src/main/java/services/moleculer/context/Context.java:272-289 | the child a forwarded call starts has a deadline no later than its parent's |
| `Context.DescendKeepsLineageAndDeadline` | src/main/java/services/moleculer/context/Context.java:124-148 | down any chain of accepted nested calls, the requestID is kept, the level grows by one per call, and no descendant's deadline is later than the first deadline set |
| `Context.DeadlineExample` | src/main/java/services/moleculer/context/Context.java:272-287 | a 1000 ms budget leaves a 400 ms timeout at +600 ms and refuses the call at +1200 ms |
| `RemoteActionEndpoint.TimeoutAt` | src/main/java/services/moleculer/service/RemoteActionEndpoint.java:52-57 | timeoutAt = now + timeout (later than now) when a positive timeout is given, otherwise 0 |
| `RemoteActionEndpoint.Dispatch` | src/main/java/services/moleculer/service/RemoteActionEndpoint.java:46-63 | the pending entry is registered under the context id with its deadline, then the request packet is sent to the target node |
| `RemoteActionEndpoint.OnPacket` | src/main/java/services/moleculer/service/RemoteActionEndpoint.java:70-82 | bytes give a data packet; a cause without bytes gives the only error packet; close gives a final close packet. Exactly one of data or error is sent when bytes or a cause are present, plus one close when asked. The error carries the cause, every packet goes to the target node under the call's id, numbers continue from the counter, and a callback with nothing sends nothing and uses no number |
| `RemoteActionEndpoint.RelayNumbersConsecutively` | src/main/java/services/moleculer/service/RemoteActionEndpoint.java:66-84 | across all callbacks of one stream, packets are numbered consecutively from counter + 1 with no gaps or repeats |
| `RemoteActionEndpoint.RemoteCallOrder` | src/main/java/services/moleculer/service/RemoteActionEndpoint.java:46-89 | a remote call registers first and sends the request second. Every later event is a stream packet to the same node under the call's id, numbered 1, 2, 3, …, and without a stream there is nothing more |
| `RemoteActionEndpoint.BytesWinOverCause` | src/main/java/services/moleculer/service/RemoteActionEndpoint.java:74-81 | a callback with bytes and a cause sends a data packet and no error packet. With close it is data n+1 followed by close n+2 |
| `XorShift.StepInvertible` | src/main/java/services/moleculer/strategy/XorShiftRandomStrategy.java:64-72 | the 64-bit xorshift update (+1, ^<<21, ^>>>35, ^<<4) has an inverse, so it is a bijection of states |
| `XorShift.StepInjective` | src/main/java/services/moleculer/strategy/XorShiftRandomStrategy.java:64-72 | two different states never lead to the same next state |
| `XorShift.Index` | src/main/java/services/moleculer/strategy/XorShiftRandomStrategy.java:75 | `abs` of Java's signed remainder of the state by a positive length is in [0, length) and equals abs(state as long) mod length |
| `XorShift.Next` | src/main/java/services/moleculer/strategy/XorShiftRandomStrategy.java:61-76 | for a non-empty array, the stored state is the xorshift step of the old one, and that same value picks the returned endpoint, which is an element of the array |
| `XorShift.SelectionsFollowTheStates` | src/main/java/services/moleculer/strategy/XorShiftRandomStrategy.java:61-76 | the j-th of successive selections is the element picked by the state j+1 steps on |
| `CommonUtils.FormatPath` | src/main/java/services/moleculer/util/CommonUtils.java:67-82 | null gives "". Otherwise the result is the trimmed path with every trailing '/' dropped and one '/' prefixed when missing. A non-empty result starts with '/' and does not end with '/' |
| `CommonUtils.NormalPathIdempotent` | src/main/java/services/moleculer/util/CommonUtils.java:67-82 | formatting a path without blank characters a second time changes nothing |
| `CommonUtils.NormalPathNotIdempotentWithBlanks` | src/main/java/services/moleculer/util/CommonUtils.java:67-82 | "/a /" formats to "/a ", which formats again to "/a" |
| `CommonUtils.GetHostOrIP` | src/main/java/services/moleculer/util/CommonUtils.java:108-141 | returns the preferred kind of address (non-empty hostname or first non-empty IP) when present, else the other kind. It returns null only if neither exists and never returns "" |
| `CommonUtils.PreferenceDecides` | src/main/java/services/moleculer/util/CommonUtils.java:108-122 | when both a hostname and an IP exist, `true` picks the hostname and `false` the IP |
| `CommonUtils.ParseURLs` | src/main/java/services/moleculer/util/CommonUtils.java:178-203 | a missing or structured entry gives the defaults. A primitive gives its comma-separated pieces, trimmed, empties dropped, in order. A list gives its items. An empty outcome falls back to the defaults |
| `CommonUtils.ParseURLsRoundTrip` | src/main/java/services/moleculer/util/CommonUtils.java:183-191 | URLs (non-empty, trimmed, comma-free) written as one comma-joined entry parse back to exactly themselves |
| `CommonUtils.ParseParams` | src/main/java/services/moleculer/util/CommonUtils.java:207-248 | null gives no data. One argument is the data itself. Otherwise it returns the left-to-right scan of name/value pairs with options and groups captured, or that scan's error |
| `CommonUtils.ScanPairs` | src/main/java/services/moleculer/util/CommonUtils.java:218-245 | alternating names and values yield exactly the entries that successive map puts of those pairs leave, with no options or groups |
| `CommonUtils.PutAllDistinct` | src/main/java/services/moleculer/util/CommonUtils.java:218-245 | with distinct names, each name maps to the value that follows it |
| `CommonUtils.ScanErrorPosition` | src/main/java/services/moleculer/util/CommonUtils.java:224-236 | a failing parse names a 1-based position that is in range and at which a name was due, holding an argument that is not a String, options or groups |
| `CommonUtils.ScanRejectsAtKeyPosition` | src/main/java/services/moleculer/util/CommonUtils.java:224-236 | a non-String, non-options, non-groups argument where a name is due is rejected with its 1-based position |
| `CommonUtils.ScanCapturesOptions` | src/main/java/services/moleculer/util/CommonUtils.java:224-229 | options standing where a name is due are captured as the call options, the latest one winning, and add no entry |
| `CommonUtils.ScanCapturesGroups` | src/main/java/services/moleculer/util/CommonUtils.java:224-233 | groups standing where a name is due are captured as the groups, the latest one winning, and add no entry |
| `CommonUtils.ScanDropsTrailingName` | src/main/java/services/moleculer/util/CommonUtils.java:222-244 | a string where a name is due becomes the pending name, whatever options or groups came before. As the last argument it adds no entry and leaves options and groups as they were |
| `CommonUtils.ScanStoresAnyValue` | src/main/java/services/moleculer/util/CommonUtils.java:241-242 | whatever stands where a value is due, options and groups included, is put under the pending name |
| `CommonUtils.NameOf` | src/main/java/services/moleculer/util/CommonUtils.java:250-266 | uses the trimmed annotation, or the field name when it is missing or blank. The result is that name when it holds a '.', else prefix + "." + name, so it always holds a '.' |
| `CommonUtils.NameOfIdempotent` | src/main/java/services/moleculer/util/CommonUtils.java:250-266 | a qualified, trimmed name given as the annotation comes back unchanged, whatever the prefix |

## Left out

- The gossip engine (building and processing gossip requests and responses, `registerAsNewNode`, `udpPacketReceived`) is not part of this model. Only the descriptor primitives it calls are modelled. This includes the gossip-test assertions about request contents and registration errors.
- The pending-request table (registration, response resolution, deadline sweep) and the transporter are not part of this model. They appear only as the `Register`/`Send…` events they receive.
- `RemoteActionEndpoint.RelayNumbersConsecutively`: every transporter send is assumed to succeed. A send that throws `IOException` out of the stream callback (src/main/java/services/moleculer/service/RemoteActionEndpoint.java:73-82) is not modelled. The number it already took with `incrementAndGet()` would then be skipped, and that callback's close packet would not be sent. "No gap" holds only when every send succeeds.
- `NodeDescriptor.RunEvolves`, `NodeDescriptor.UpdateCpu`, `NodeDescriptor.MarkAsOffline`: `seq` and `cpuSeq` are unbounded integers, so the Java `long` wrap-around is not modelled. It is reachable: a peer's info or load report carrying Long.MAX_VALUE is adopted (`markAsOnline`, `markAsOffline(long)`, `updateCpu(long, int)`), and one later increment (`markAsOffline()` or `updateCpu(int)`) wraps the counter to Long.MIN_VALUE. In Java the counter then decreases, and a stale report is adopted again. The monotonicity that `RunEvolves` proves holds only for counters that stay below Long.MAX_VALUE.
- `RemoteActionEndpoint.TimeoutAt`: `now + timeout` is unbounded. Java adds them in `long` arithmetic (src/main/java/services/moleculer/service/RemoteActionEndpoint.java:54), so a timeout above Long.MAX_VALUE − now wraps the deadline to a negative value. The ensures `t > now` holds only without that overflow.
- `Context.Nested`: `level` is unbounded, and the Java `int` overflow after 2^31 nesting levels is not modelled.
- `Context.DescendKeepsLineageAndDeadline`: the child context is assumed to be created at the same clock reading as the call that forwards its timeout. The service invoker that creates it is not part of this model.
- The info document keeps only the "seq", "hostname", "ipList" and "port" entries, plus a flag for any other entry. `markAsOffline` writes the new seq into the caller's shared document (aliasing), which is not modelled. An `ipList` entry that is not a string is not modelled.
- `parseURLs` treats the configuration name as a plain key, not a path. A list entry's items are taken as strings, as `asList(String.class)` returns them.
- The call parameters (`Tree params`) and the stream object of a context are not modelled. A context carries only whether it has a stream. The params pass through `call` unchanged.
- `parseParams` models the single-argument `CheckedTree` wrapper as the argument itself.
- `XorShift.Next`: an empty endpoint array is excluded by its precondition. There Java's `next % 0` throws `ArithmeticException`; the strategy base class that calls it is not part of this model, and that exception path is not modelled.
- The clock (`currentTimeMillis`) and the strategy's `nanoTime` seed are parameters. The quality or distribution of the xorshift sequence is not stated.
- Locks, `volatile` fields and the compare-and-set retry loop are not modelled. Each operation is one atomic step.
- `getHostName`, `getNodeInfos`, `compress`/`decompress`, `readTree`/`readFully`/`getFormat` and `nameOf(Object, boolean)` are not modelled. They use system properties, the transporter, zlib, I/O and reflection.
- The file logger, the local listener endpoint, the event bus and strategy factory interfaces, and the demo `main` are not modelled. They are I/O, concurrency or interface boilerplate with no sequential logic.

=== FILE: base.dfy ===
/**
 * Wrappers shared by every module of the model: an optional value (Java's nullable references) and a result that carries
 * either a value or the exception the Java code would throw.
 */
module Base {

  /** A nullable reference: `None` is Java's `null`. */
  datatype Option<+T> = None | Some(value: T) {

    /** The value, or a default when absent (`Tree.get(key, default)`). */
    function GetOr(default: T): T
    {
      match this
      case Some(v) => v
      case None => default
    }
  }

  /** Either a value or the error that the Java code raises instead. */
  datatype Result<+T, +E> = Ok(value: T) | Err(error: E)

  /**
   * A reading of the wall clock in milliseconds (`System.currentTimeMillis`),
   * passed in as a parameter; it is always positive.
   */
  type Millis = t: int | t > 0 witness 1
}

=== FILE: call_options.dfy ===
/**
 * Calling options of an action call: an optional target node, a timeout in
 * milliseconds (0 or less means none) and a retry count. The options class
 * itself is not part of this model; only the fields and the two
 * constructors the core uses are.
 */
module CallOptions {
  import opened Base

  datatype Options = Options(timeout: int, nodeID: Option<string>, retryCount: int)
  {
    /** `opts.timeout(t)`: the same options with another timeout. */
    function WithTimeout(t: int): (o: Options)
      ensures o.timeout == t && o.nodeID == nodeID && o.retryCount == retryCount
    {
      this.(timeout := t)
    }
  }

  /** `CallOptions.timeout(t)`: options that set only a timeout. */
  function TimeoutOnly(t: int): (o: Options)
    ensures o.timeout == t && o.nodeID.None? && o.retryCount == 0
  {
    Options(t, None, 0)
  }
}

=== FILE: common_utils.dfy ===
/**
 * Pure helpers of the runtime's `CommonUtils`: path formatting, choosing
 * a node's host name or IP address, URL-list parsing, call-parameter
 * parsing and qualified action names.
 */
module CommonUtils {
  import opened Base
  import opened Text
  import opened DataTree
  import opened CallOptions

  // --- PATH FORMATTER ---

  /** `s` with every trailing `c` removed. */
  function StripTrailing(s: string, c: char): (r: string)
    ensures |r| <= |s| && r == s[..|r|]
    ensures r == [] || r[|r| - 1] != c
    ensures forall i :: |r| <= i < |s| ==> s[i] == c
  {
    if s != [] && s[|s| - 1] == c then StripTrailing(s[..|s| - 1], c) else s
  }

  /**
   * Closed form of the path formatter: trim, drop every trailing '/', and
   * put one '/' in front of what is left unless it already starts with one.
   */
  function NormalPath(path: Option<string>): string
  {
    match path
    case None => []
    case Some(p) =>
      var core := StripTrailing(Trim(p), '/');
      if core == [] then [] else if core[0] == '/' then core else "/" + core
  }

  /** Prefixing a string that does not start with '/' commutes with stripping. */
  lemma StripAfterSlash(t: string)
    requires t != [] && t[0] != '/'
    ensures StripTrailing("/" + t, '/') == "/" + StripTrailing(t, '/')
    decreases |t|
  {
    var s := "/" + t;
    if t[|t| - 1] == '/' {
      assert |t| >= 2;
      assert s[..|s| - 1] == "/" + t[..|t| - 1];
      StripAfterSlash(t[..|t| - 1]);
    }
  }

  /**
   * `formatPath`: null becomes "", otherwise the trimmed path gets a leading
   * '/' when it lacks one and loses every trailing '/'.
   */
  method FormatPath(path: Option<string>) returns (r: string)
    ensures r == NormalPath(path)
    ensures path.None? ==> r == []
    ensures r == [] || (r[0] == '/' && r[|r| - 1] != '/')
  {
    if path.None? {
      return [];
    }
    var p := Trim(path.value);
    if p == [] {
      return p;
    }
    ghost var t := p;
    if p[0] != '/' {
      p := "/" + p;
      StripAfterSlash(t);
    }
    ghost var target := StripTrailing(p, '/');
    while p != [] && p[|p| - 1] == '/'
      invariant StripTrailing(p, '/') == target
      decreases |p|
    {
      p := p[..|p| - 1];
    }
    r := p;
  }

  predicate NoBlanks(s: string) {
    forall i :: 0 <= i < |s| ==> !IsBlank(s[i])
  }

  /** On a path without blank characters the formatter is idempotent. */
  lemma NormalPathIdempotent(p: string)
    requires NoBlanks(p)
    ensures NormalPath(Some(NormalPath(Some(p)))) == NormalPath(Some(p))
  {
    TrimOfTrimmed(p);
    var core := StripTrailing(p, '/');
    var r := NormalPath(Some(p));
    assert NoBlanks(core) by {
      forall i | 0 <= i < |core| ensures !IsBlank(core[i]) {
        assert core[i] == p[i];
      }
    }
    if core != [] && core[0] != '/' {
      assert NoBlanks(r) by {
        forall i | 0 <= i < |r| ensures !IsBlank(r[i]) {
          if i > 0 { assert r[i] == core[i - 1]; }
        }
      }
    }
    TrimOfTrimmed(r);
  }

  /**
   * With a blank before a trailing '/', one pass leaves a trailing blank
   * that a second pass trims away.
   */
  lemma NormalPathNotIdempotentWithBlanks()
    ensures NormalPath(Some("/a /")) == "/a "
    ensures NormalPath(Some("/a ")) == "/a"
  {
    assert Trim("/a /") == "/a /";
    assert StripTrailing("/a /", '/') == "/a ";
    assert Trim("/a ") == "/a";
    assert StripTrailing("/a", '/') == "/a";
  }

  // --- GET HOSTNAME OR IP FROM AN INFO STRUCTURE ---

  /** The "hostname" entry, when present and non-empty. */
  predicate HasHostname(info: Tree) {
    info.hostname.Some? && info.hostname.value != []
  }

  /** A first "ipList" entry exists and is non-empty. */
  predicate HasIP(info: Tree) {
    info.ipList.Some? && |info.ipList.value| > 0 && info.ipList.value[0] != []
  }

  function GetHost(info: Tree): Option<string> {
    if HasHostname(info) then info.hostname else None
  }

  function GetIP(info: Tree): Option<string> {
    if HasIP(info) then Some(info.ipList.value[0]) else None
  }

  /**
   * `getHostOrIP`: the preferred kind of address when the document has one,
   * otherwise the other kind; never an empty string.
   */
  function GetHostOrIP(preferHostname: bool, info: Tree): (r: Option<string>)
    ensures r.None? <==> !HasHostname(info) && !HasIP(info)
    ensures r.Some? ==> r.value != []
    ensures r.Some? ==> r == info.hostname || (HasIP(info) && r.value == info.ipList.value[0])
    ensures preferHostname && HasHostname(info) ==> r == info.hostname
    ensures preferHostname && !HasHostname(info) && HasIP(info) ==> r == Some(info.ipList.value[0])
    ensures !preferHostname && HasIP(info) ==> r == Some(info.ipList.value[0])
    ensures !preferHostname && !HasIP(info) && HasHostname(info) ==> r == info.hostname
  {
    if preferHostname then
      (if GetHost(info).Some? then GetHost(info) else GetIP(info))
    else
      (if GetIP(info).Some? then GetIP(info) else GetHost(info))
  }

  /** When both kinds of address exist, the preference alone decides. */
  lemma PreferenceDecides(info: Tree)
    requires HasHostname(info) && HasIP(info)
    ensures GetHostOrIP(true, info) == info.hostname
    ensures GetHostOrIP(false, info) == Some(info.ipList.value[0])
  {
  }

  // --- PARSE URL LIST OR URL ARRAY ---

  /** A configuration entry: a primitive text, a list of texts, or a structure. */
  datatype ConfigValue = Primitive(text: string) | Enumeration(items: seq<string>) | Structure

  predicate IsUrl(u: string) {
    u != [] && IsTrimmed(u) && ',' !in u
  }

  /** The pieces, each trimmed, empty ones dropped, order kept. */
  function CleanPieces(pieces: seq<string>): (r: seq<string>)
    ensures |r| <= |pieces|
    ensures forall k :: 0 <= k < |r| ==> r[k] != [] && IsTrimmed(r[k])
  {
    if pieces == [] then []
    else
      var u := Trim(pieces[0]);
      if u == [] then CleanPieces(pieces[1..]) else [u] + CleanPieces(pieces[1..])
  }

  /** The URLs of a primitive entry: the comma-separated pieces, cleaned. */
  function SplitUrls(text: string): (r: seq<string>)
    ensures forall k :: 0 <= k < |r| ==> IsUrl(r[k])
  {
    var pieces := Split(text, ',');
    var r := CleanPieces(pieces);
    assert forall k :: 0 <= k < |r| ==> ',' !in r[k] by {
      CleanPiecesFrom(pieces);
    }
    r
  }

  lemma {:induction false} CleanPiecesFrom(pieces: seq<string>)
    requires forall k :: 0 <= k < |pieces| ==> ',' !in pieces[k]
    ensures forall k :: 0 <= k < |CleanPieces(pieces)| ==> ',' !in CleanPieces(pieces)[k]
    decreases |pieces|
  {
    if pieces != [] {
      CleanPiecesFrom(pieces[1..]);
      var u := Trim(pieces[0]);
      assert ',' !in u by {
        var k := LeadingBlanks(pieces[0]);
        forall j | 0 <= j < |u|
          ensures u[j] != ','
        {
          assert u[j] == pieces[0][k + j];
        }
      }
    }
  }

  lemma {:induction false} CleanPiecesOfUrls(urls: seq<string>)
    requires forall k :: 0 <= k < |urls| ==> IsUrl(urls[k])
    ensures CleanPieces(urls) == urls
    decreases |urls|
  {
    if urls != [] {
      TrimOfTrimmed(urls[0]);
      CleanPiecesOfUrls(urls[1..]);
      assert [urls[0]] + urls[1..] == urls;
    }
  }

  /**
   * `parseURLs`: the URLs configured under `name`, or the defaults when the
   * entry is missing, is a structure, or yields no URL.
   */
  function ParseURLs(config: map<string, ConfigValue>, name: string, defaults: seq<string>): (r: seq<string>)
    ensures name !in config || config[name].Structure? ==> r == defaults
    ensures name in config && config[name].Primitive? ==>
      r == (if SplitUrls(config[name].text) == [] then defaults else SplitUrls(config[name].text))
    ensures name in config && config[name].Enumeration? ==>
      r == (if config[name].items == [] then defaults else config[name].items)
  {
    if name !in config then defaults
    else
      match config[name]
      case Primitive(text) =>
        var urls := SplitUrls(text);
        if urls == [] then defaults else urls
      case Enumeration(items) =>
        if items == [] then defaults else items
      case Structure => defaults
  }

  /** Writing URLs as one comma-separated entry and parsing it gives them back. */
  lemma ParseURLsRoundTrip(urls: seq<string>, name: string, defaults: seq<string>)
    requires |urls| >= 1
    requires forall k :: 0 <= k < |urls| ==> IsUrl(urls[k])
    ensures ParseURLs(map[name := Primitive(Join(urls, ','))], name, defaults) == urls
  {
    SplitJoin(urls, ',');
    CleanPiecesOfUrls(urls);
  }

  // --- PARSE CALL / BROADCAST PARAMS ---

  /** Node groups of an event broadcast, carried through parameter parsing. */
  datatype Groups = Groups(names: seq<string>)

  /** One argument of a varargs call. */
  datatype Param =
    | Str(text: string)
    | Opts(options: Options)
    | Grp(groups: Groups)
    | Doc(tree: Tree)
    | Other(repr: string)

  /** May stand where a parameter name is expected. */
  predicate KeyLike(p: Param) {
    p.Str? || p.Opts? || p.Grp?
  }

  /**
   * The request data: absent (null arguments), one argument used as the data
   * itself, or name/value entries in insertion order.
   */
  datatype Payload = Absent | Single(param: Param) | Entries(entries: seq<(string, Param)>)

  datatype ParseResult = ParseResult(data: Payload, opts: Option<Options>, groups: Option<Groups>)

  /** The runtime's `IllegalArgumentException`, naming a 1-based position. */
  datatype ParamError = IllegalParameter(position: nat)

  function Keys(entries: seq<(string, Param)>): set<string> {
    set k | 0 <= k < |entries| :: entries[k].0
  }

  function Lookup(entries: seq<(string, Param)>, key: string): Option<Param>
  {
    if entries == [] then None
    else if entries[0].0 == key then Some(entries[0].1)
    else Lookup(entries[1..], key)
  }

  /**
   * `LinkedHashMap.put`: a new key is appended, an existing key keeps its
   * place and takes the new value.
   */
  function Put(entries: seq<(string, Param)>, key: string, value: Param): (r: seq<(string, Param)>)
    ensures Lookup(r, key) == Some(value)
    ensures forall k :: k != key ==> Lookup(r, k) == Lookup(entries, k)
    ensures key in Keys(entries) ==> |r| == |entries|
    ensures key !in Keys(entries) ==> r == entries + [(key, value)]
  {
    if entries == [] then [(key, value)]
    else if entries[0].0 == key then [(key, value)] + entries[1..]
    else
      var rest := Put(entries[1..], key, value);
      assert Keys(entries) == {entries[0].0} + Keys(entries[1..]);
      assert key !in Keys(entries) ==> [entries[0]] + (entries[1..] + [(key, value)]) == entries + [(key, value)];
      [entries[0]] + rest
  }

  /** Scanner state between two arguments: the pending name, if any. */
  datatype Scan = Scan(prev: Option<string>, entries: seq<(string, Param)>, opts: Option<Options>, groups: Option<Groups>)

  /** One argument consumed. */
  function Feed(st: Scan, p: Param, position: nat): Result<Scan, ParamError>
  {
    if st.prev.Some? then Ok(st.(prev := None, entries := Put(st.entries, st.prev.value, p)))
    else
      match p
      case Str(s) => Ok(st.(prev := Some(s)))
      case Opts(o) => Ok(st.(opts := Some(o)))
      case Grp(g) => Ok(st.(groups := Some(g)))
      case _ => Err(IllegalParameter(position))
  }

  const Start: Scan := Scan(None, [], None, None)

  /** The scan of the arguments, left to right, stopping at the first error. */
  function ScanAll(ps: seq<Param>): Result<Scan, ParamError>
    decreases |ps|
  {
    if ps == [] then Ok(Start)
    else
      match ScanAll(ps[..|ps| - 1])
      case Err(e) => Err(e)
      case Ok(st) => Feed(st, ps[|ps| - 1], |ps|)
  }

  /**
   * `parseParams`: one argument is the data itself; otherwise arguments are
   * read as name/value pairs, options and groups standing in a name position
   * are captured, a trailing name without value is dropped, and any other
   * kind of value in a name position is an error naming its 1-based position.
   */
  method ParseParams(params: Option<seq<Param>>) returns (r: Result<ParseResult, ParamError>)
    ensures params.None? ==> r == Ok(ParseResult(Absent, None, None))
    ensures params.Some? && |params.value| == 1 ==> r == Ok(ParseResult(Single(params.value[0]), None, None))
    ensures params.Some? && |params.value| != 1 ==>
      match ScanAll(params.value)
      case Ok(st) => r == Ok(ParseResult(Entries(st.entries), st.opts, st.groups))
      case Err(e) => r == Err(e)
  {
    if params.None? {
      return Ok(ParseResult(Absent, None, None));
    }
    var ps := params.value;
    if |ps| == 1 {
      return Ok(ParseResult(Single(ps[0]), None, None));
    }
    var st := Start;
    var i := 0;
    while i < |ps|
      invariant 0 <= i <= |ps|
      invariant ScanAll(ps[..i]) == Ok(st)
    {
      assert ps[..i + 1][..i] == ps[..i];
      var next := Feed(st, ps[i], i + 1);
      if next.Err? {
        ScanErrorSticks(ps, i + 1);
        return Err(next.error);
      }
      st := next.value;
      i := i + 1;
    }
    assert ps[..|ps|] == ps;
    r := Ok(ParseResult(Entries(st.entries), st.opts, st.groups));
  }

  /** Once the scan fails, later arguments do not change the error. */
  lemma {:induction false} ScanErrorSticks(ps: seq<Param>, j: int)
    requires 0 <= j <= |ps|
    requires ScanAll(ps[..j]).Err?
    ensures ScanAll(ps) == ScanAll(ps[..j])
    decreases |ps| - j
  {
    if j < |ps| {
      assert ps[..j + 1][..j] == ps[..j];
      ScanErrorSticks(ps, j + 1);
    } else {
      assert ps[..j] == ps;
    }
  }

  /** `[k0, v0, k1, v1, ...]`. */
  function Interleave(keys: seq<string>, values: seq<Param>): (r: seq<Param>)
    requires |keys| == |values|
    ensures |r| == 2 * |keys|
  {
    if keys == [] then [] else Interleave(keys[..|keys| - 1], values[..|values| - 1]) + [Str(keys[|keys| - 1]), values[|values| - 1]]
  }

  /** The entries that successive `put`s of the pairs leave. */
  function PutAll(keys: seq<string>, values: seq<Param>): seq<(string, Param)>
    requires |keys| == |values|
  {
    if keys == [] then [] else Put(PutAll(keys[..|keys| - 1], values[..|values| - 1]), keys[|keys| - 1], values[|values| - 1])
  }

  /** Alternating names and values are read into the entries they describe. */
  lemma {:induction false} ScanPairs(keys: seq<string>, values: seq<Param>)
    requires |keys| == |values|
    ensures ScanAll(Interleave(keys, values)) == Ok(Scan(None, PutAll(keys, values), None, None))
    decreases |keys|
  {
    if keys != [] {
      var n := |keys|;
      var ks, vs := keys[..n - 1], values[..n - 1];
      var ps := Interleave(keys, values);
      ScanPairs(ks, vs);
      assert ps[..|ps| - 1][..|ps| - 2] == Interleave(ks, vs);
      assert ps[..|ps| - 1][|ps| - 2] == Str(keys[n - 1]);
      assert ps[|ps| - 1] == values[n - 1];
    }
  }

  /** With distinct names, each name maps to the value that follows it. */
  lemma {:induction false} PutAllDistinct(keys: seq<string>, values: seq<Param>, j: int)
    requires |keys| == |values|
    requires forall a, b :: 0 <= a < b < |keys| ==> keys[a] != keys[b]
    requires 0 <= j < |keys|
    ensures Lookup(PutAll(keys, values), keys[j]) == Some(values[j])
    decreases |keys|
  {
    var n := |keys|;
    if j < n - 1 {
      PutAllDistinct(keys[..n - 1], values[..n - 1], j);
    }
  }

  /** A failing scan names a non-name argument found where a name was due. */
  lemma {:induction false} ScanErrorPosition(ps: seq<Param>)
    requires ScanAll(ps).Err?
    ensures var pos := ScanAll(ps).error.position;
      && 1 <= pos <= |ps|
      && !KeyLike(ps[pos - 1])
      && ScanAll(ps[..pos - 1]).Ok?
      && ScanAll(ps[..pos - 1]).value.prev.None?
    decreases |ps|
  {
    var n := |ps|;
    var init := ps[..n - 1];
    if ScanAll(init).Err? {
      ScanErrorPosition(init);
      var pos := ScanAll(init).error.position;
      assert init[..pos - 1] == ps[..pos - 1];
    } else {
      assert ps[..n - 1] == init;
    }
  }

  /**
   * Options standing where a name is due are captured, the latest one
   * winning, and are not stored as an entry.
   */
  lemma {:induction false} ScanCapturesOptions(ps: seq<Param>, o: Options)
    requires ScanAll(ps).Ok? && ScanAll(ps).value.prev.None?
    ensures ScanAll(ps + [Opts(o)]) == Ok(ScanAll(ps).value.(opts := Some(o)))
  {
    assert (ps + [Opts(o)])[..|ps|] == ps;
  }

  /** Groups standing where a name is due are captured likewise. */
  lemma {:induction false} ScanCapturesGroups(ps: seq<Param>, g: Groups)
    requires ScanAll(ps).Ok? && ScanAll(ps).value.prev.None?
    ensures ScanAll(ps + [Grp(g)]) == Ok(ScanAll(ps).value.(groups := Some(g)))
  {
    assert (ps + [Grp(g)])[..|ps|] == ps;
  }

  /**
   * A string where a name is due becomes the pending name. When it is the
   * last argument it adds no entry and changes neither the options nor the
   * groups, so `ParseParams` drops it.
   */
  lemma {:induction false} ScanDropsTrailingName(ps: seq<Param>, name: string)
    requires ScanAll(ps).Ok? && ScanAll(ps).value.prev.None?
    ensures ScanAll(ps + [Str(name)]).Ok?
    ensures ScanAll(ps + [Str(name)]).value.prev == Some(name)
    ensures ScanAll(ps + [Str(name)]).value.entries == ScanAll(ps).value.entries
    ensures ScanAll(ps + [Str(name)]).value.opts == ScanAll(ps).value.opts
    ensures ScanAll(ps + [Str(name)]).value.groups == ScanAll(ps).value.groups
  {
    assert (ps + [Str(name)])[..|ps|] == ps;
  }

  /** Whatever stands where a value is due, options included, is stored under the pending name. */
  lemma {:induction false} ScanStoresAnyValue(ps: seq<Param>, v: Param)
    requires ScanAll(ps).Ok? && ScanAll(ps).value.prev.Some?
    ensures var st := ScanAll(ps).value;
      ScanAll(ps + [v]) == Ok(st.(prev := None, entries := Put(st.entries, st.prev.value, v)))
  {
    assert (ps + [v])[..|ps|] == ps;
  }

  /** A value in a name position that is not a name, options or groups is rejected. */
  lemma ScanRejectsAtKeyPosition(ps: seq<Param>, i: int)
    requires 0 <= i < |ps|
    requires ScanAll(ps[..i]).Ok? && ScanAll(ps[..i]).value.prev.None?
    requires !KeyLike(ps[i])
    ensures ScanAll(ps[..i + 1]) == Err(IllegalParameter(i + 1))
  {
    assert ps[..i + 1][..i] == ps[..i];
  }

  // --- ACTION NAMES ---

  /**
   * `nameOf(prefix, field)`: the trimmed `@Name` annotation, or the field name
   * when there is none or it is blank; qualified with `prefix` unless it
   * already holds a '.'.
   */
  function NameOf(prefix: string, annotation: Option<string>, fieldName: string): (r: string)
    ensures '.' in r
    ensures var name := if annotation.Some? && Trim(annotation.value) != [] then Trim(annotation.value) else fieldName;
      && ('.' in name ==> r == name)
      && ('.' !in name ==> r == prefix + "." + name)
  {
    var name := if annotation.Some? && Trim(annotation.value) != [] then Trim(annotation.value) else fieldName;
    if '.' !in name then
      assert (prefix + "." + name)[|prefix|] == '.';
      prefix + "." + name
    else name
  }

  /** A qualified, trimmed name given as the annotation comes back unchanged. */
  lemma NameOfIdempotent(prefix: string, annotation: string, fieldName: string, prefix': string, fieldName': string)
    requires IsTrimmed(prefix) && IsTrimmed(annotation) && IsTrimmed(fieldName)
    ensures var r := NameOf(prefix, Some(annotation), fieldName);
      NameOf(prefix', Some(r), fieldName') == r
  {
    var r := NameOf(prefix, Some(annotation), fieldName);
    TrimOfTrimmed(annotation);
    var name := if annotation != [] then annotation else fieldName;
    assert IsTrimmed(name);
    if '.' !in name {
      QualifiedIsTrimmed(prefix, name);
    }
    TrimOfTrimmed(r);
  }

  lemma QualifiedIsTrimmed(prefix: string, name: string)
    requires IsTrimmed(prefix) && IsTrimmed(name)
    ensures IsTrimmed(prefix + "." + name)
  {
    var q := prefix + "." + name;
    assert q[0] == (if prefix == [] then '.' else prefix[0]);
    assert q[|q| - 1] == (if name == [] then '.' else name[|name| - 1]);
  }
}

=== FILE: context.dfy ===
/**
 * A call's identity and lineage, and the distributed timeout: a context
 * started with a timeout records its start time, and every nested call it
 * makes is given only what is left of that budget, or is refused before
 * dispatch once nothing is left.
 */
module Context {
  import opened Base
  import opened CallOptions

  datatype Context = Context(
    id: string,
    name: string,
    level: int,
    parentID: Option<string>,
    requestID: string,
    opts: Option<Options>,
    startTime: int,
    hasStream: bool)

  /** A timeout is in effect: options are given and their timeout is positive. */
  predicate TimeoutApplies(opts: Option<Options>) {
    opts.Some? && opts.value.timeout > 0
  }

  /** The clock is read only when a timeout is in effect; otherwise `startTime` is 0. */
  function StartTime(opts: Option<Options>, now: Millis): (t: int)
    ensures t != 0 <==> TimeoutApplies(opts)
    ensures t != 0 ==> t == now
    ensures t >= 0
  {
    if TimeoutApplies(opts) then now else 0
  }

  /** Every constructor leaves a context whose start time implies a timeout. */
  predicate WellFormed(c: Context) {
    c.startTime >= 0 && (c.startTime > 0 ==> TimeoutApplies(c.opts))
  }

  /** The absolute deadline of a context, when it has one. */
  function Deadline(c: Context): Option<int>
    requires WellFormed(c)
  {
    if c.startTime > 0 then Some(c.startTime + c.opts.value.timeout) else None
  }

  // --- CONSTRUCTORS ---

  /** A root context: level 1, no parent, and it is its own request. */
  function Root(id: string, name: string, opts: Option<Options>, hasStream: bool, now: Millis): (c: Context)
    ensures c.id == id && c.level == 1 && c.parentID.None? && c.requestID == id
    ensures c.name == name && c.hasStream == hasStream
    ensures c.opts == opts
    ensures c.startTime != 0 <==> TimeoutApplies(opts)
    ensures c.startTime != 0 ==> c.startTime == now
    ensures WellFormed(c)
  {
    Context(id, name, 1, None, id, opts, StartTime(opts, now), hasStream)
  }

  /** A nested context: one level below its parent, within the parent's request. */
  function Nested(id: string, name: string, opts: Option<Options>, hasStream: bool, parent: Context, now: Millis): (c: Context)
    ensures c.id == id && c.level == parent.level + 1
    ensures c.parentID == Some(parent.id) && c.requestID == parent.requestID
    ensures c.name == name && c.hasStream == hasStream
    ensures c.opts == opts
    ensures c.startTime != 0 <==> TimeoutApplies(opts)
    ensures c.startTime != 0 ==> c.startTime == now
    ensures WellFormed(c)
  {
    Context(id, name, parent.level + 1, Some(parent.id), parent.requestID, opts, StartTime(opts, now), hasStream)
  }

  /** A context rebuilt from a request packet: its lineage is taken as given. */
  function WithLineage(id: string, name: string, opts: Option<Options>, hasStream: bool,
                       level: int, requestID: string, parentID: Option<string>, now: Millis): (c: Context)
    ensures c.id == id && c.level == level && c.requestID == requestID && c.parentID == parentID
    ensures c.name == name && c.hasStream == hasStream
    ensures c.opts == opts
    ensures c.startTime != 0 <==> TimeoutApplies(opts)
    ensures c.startTime != 0 ==> c.startTime == now
    ensures WellFormed(c)
  {
    Context(id, name, level, parentID, requestID, opts, StartTime(opts, now), hasStream)
  }

  // --- NESTED CALL ---

  /**
   * The outcome of `call`: refused with the request-rejected error of the
   * local node, or handed to the service invoker with these options.
   */
  datatype CallResult =
    | Rejected(nodeID: string, action: string)
    | Invoked(action: string, opts: Option<Options>)

  /** What is left of the context's timeout at `now`. */
  function Remaining(c: Context, now: Millis): int
    requires WellFormed(c) && c.startTime > 0
  {
    c.opts.value.timeout - (now - c.startTime)
  }

  /**
   * `call(name, params, opts, stream)`: without a deadline the options pass
   * unchanged; with one, a spent budget refuses the call, and otherwise the
   * forwarded timeout is the caller's own when it is positive and within the
   * budget, and what is left of the budget in every other case.
   */
  function Call(c: Context, localNodeID: string, action: string, opts: Option<Options>, now: Millis): (r: CallResult)
    requires WellFormed(c)
    ensures c.startTime == 0 ==> r == Invoked(action, opts)
    ensures c.startTime > 0 ==> (r.Rejected? <==> Remaining(c, now) <= 0)
    ensures r.Rejected? ==> r == Rejected(localNodeID, action)
    ensures c.startTime > 0 && r.Invoked? ==>
      && r.action == action
      && r.opts.Some?
      && 0 < r.opts.value.timeout <= Remaining(c, now)
      && (opts.None? ==> r.opts.value == TimeoutOnly(Remaining(c, now)))
      && (opts.Some? ==> r.opts.value.nodeID == opts.value.nodeID
                         && r.opts.value.retryCount == opts.value.retryCount)
      && (opts.Some? && 1 <= opts.value.timeout <= Remaining(c, now) ==> r.opts == opts)
      && (opts.Some? && !(1 <= opts.value.timeout <= Remaining(c, now)) ==>
            r.opts == Some(opts.value.WithTimeout(Remaining(c, now))))
  {
    if c.startTime > 0 then
      var duration := now - c.startTime;
      var distTimeout := c.opts.value.timeout - duration;
      if distTimeout <= 0 then Rejected(localNodeID, action)
      else if opts.None? then Invoked(action, Some(TimeoutOnly(distTimeout)))
      else if opts.value.timeout < 1 || distTimeout < opts.value.timeout then
        Invoked(action, Some(opts.value.WithTimeout(distTimeout)))
      else Invoked(action, opts)
    else Invoked(action, opts)
  }

  /**
   * The child a forwarded call starts carries a deadline no later than its
   * parent's.
   */
  lemma ChildDeadlineWithinParent(c: Context, localNodeID: string, action: string, opts: Option<Options>,
                                  id: string, now: Millis)
    requires WellFormed(c) && c.startTime > 0
    requires Call(c, localNodeID, action, opts, now).Invoked?
    ensures var child := Nested(id, action, Call(c, localNodeID, action, opts, now).opts, false, c, now);
      && Deadline(child).Some?
      && Deadline(child).value <= Deadline(c).value
  {
  }

  /** One nested call: its id, action, requested options and clock reading. */
  datatype Hop = Hop(id: string, action: string, opts: Option<Options>, now: Millis)

  /**
   * A chain of nested calls, each issued from the context the previous one
   * started; `None` when one of them is refused.
   */
  function Descend(c: Context, localNodeID: string, hops: seq<Hop>): Option<Context>
    requires WellFormed(c)
    decreases |hops|
  {
    if hops == [] then Some(c)
    else
      var h := hops[0];
      match Call(c, localNodeID, h.action, h.opts, h.now)
      case Rejected(_, _) => None
      case Invoked(_, o) => Descend(Nested(h.id, h.action, o, false, c, h.now), localNodeID, hops[1..])
  }

  /**
   * Down a chain of nested calls the request id is kept, the level grows by
   * one per call, and once a deadline is set no descendant's deadline is
   * later than it.
   */
  lemma {:induction false} DescendKeepsLineageAndDeadline(c: Context, localNodeID: string, hops: seq<Hop>)
    requires WellFormed(c)
    requires Descend(c, localNodeID, hops).Some?
    ensures var d := Descend(c, localNodeID, hops).value;
      && WellFormed(d)
      && d.requestID == c.requestID
      && d.level == c.level + |hops|
      && (Deadline(c).Some? ==> Deadline(d).Some? && Deadline(d).value <= Deadline(c).value)
    decreases |hops|
  {
    if hops != [] {
      var h := hops[0];
      var r := Call(c, localNodeID, h.action, h.opts, h.now);
      var child := Nested(h.id, h.action, r.opts, false, c, h.now);
      DescendKeepsLineageAndDeadline(child, localNodeID, hops[1..]);
    }
  }

  /**
   * The worked example of the distributed timeout: a 1000 ms budget started
   * at `t0` leaves 400 ms to a call at `t0 + 600`, and refuses one at
   * `t0 + 1200`.
   */
  lemma DeadlineExample(t0: Millis, localNodeID: string)
    ensures var root := Root("ctx1", "a.b", Some(TimeoutOnly(1000)), false, t0);
      && Call(root, localNodeID, "c.d", None, t0 + 600) == Invoked("c.d", Some(TimeoutOnly(400)))
      && Call(root, localNodeID, "c.d", None, t0 + 1200) == Rejected(localNodeID, "c.d")
  {
  }
}

=== FILE: data_tree.dfy ===
/**
 * The node-info document (`io.datatree.Tree`) reduced to the entries the
 * core reads: "seq", "hostname", "ipList" and "port", plus a flag for any
 * other entry (such as "services"), which is what `isEmpty` needs.
 */
module DataTree {
  import opened Base

  datatype Tree = Tree(
    seqNo: Option<int>,
    hostname: Option<string>,
    ipList: Option<seq<string>>,
    port: Option<int>,
    otherEntries: bool)
  {
    /** `Tree.isEmpty`: the document has no entry at all. */
    predicate IsEmpty() {
      seqNo.None? && hostname.None? && ipList.None? && port.None? && !otherEntries
    }

    /** `info.get("seq", 0L)`. */
    function Seq(): int {
      seqNo.GetOr(0)
    }

    /** `info.get("port", 0)`. */
    function Port(): int {
      port.GetOr(0)
    }

    /** `info.put("seq", s)`: overwrites the "seq" entry and nothing else. */
    function PutSeq(s: int): (t: Tree)
      ensures t.Seq() == s && !t.IsEmpty()
      ensures t.hostname == hostname && t.ipList == ipList && t.port == port
      ensures t.otherEntries == otherEntries
    {
      this.(seqNo := Some(s))
    }
  }

  /** `new Tree()`. */
  const Empty: Tree := Tree(None, None, None, None, false)
}

=== FILE: node_descriptor.dfy ===
/**
 * The per-node record of the gossip protocol: identity, address, presence
 * versioned by `seqNo`, and load versioned separately by `cpuSeq`. Each
 * mutator is a pure transition returning the new record (and, where the
 * Java method returns a boolean, that boolean) or the error it throws.
 */
module NodeDescriptor {
  import opened Base
  import opened DataTree
  import opened CommonUtils

  datatype Node = Node(
    nodeID: string,
    local: bool,
    preferHostname: bool,
    host: string,
    port: int,
    info: Tree,
    seqNo: int,
    offlineSince: int,
    cpu: int,
    cpuSeq: int,
    cpuWhen: int)
  {
    /** A node is online while `offlineSince` is 0. */
    predicate Online() {
      offlineSince == 0
    }
  }

  /** What the descriptor throws on invalid input. */
  datatype NodeError =
    | InvalidPort(port: int)
    | NullHost
    | InfoRequired
    | InvalidCpu(cpu: int)
    | InvalidCpuSeq(cpuSeq: int)
    | InvalidSeq(seqNo: int)
    | NullInfo
    | EmptyInfo
    | EmptyHost

  /** The new record and the boolean the Java method returns. */
  datatype Step = Step(node: Node, changed: bool)

  /**
   * Holds of every record the constructors and mutators produce: the load is
   * a percentage, the info document carries the record's own `seq`, and the
   * clocks are not negative.
   */
  predicate Consistent(n: Node) {
    && 0 <= n.cpu <= 100
    && n.info.Seq() == n.seqNo
    && n.cpuSeq >= 0
    && n.offlineSince >= 0
  }

  /**
   * `n'` is a later version of `n`: the same node, and neither of the two
   * version counters went back.
   */
  predicate Evolves(n: Node, n': Node) {
    && n'.nodeID == n.nodeID
    && n'.local == n.local
    && n'.preferHostname == n.preferHostname
    && n'.seqNo >= n.seqNo
    && n'.cpuSeq >= n.cpuSeq
  }

  /** The fields fixed at construction are those of `n`. */
  predicate SameIdentity(n: Node, n': Node) {
    n'.nodeID == n.nodeID && n'.local == n.local && n'.preferHostname == n.preferHostname
  }

  /** Presence, address and info are those of `n`. */
  predicate SamePresence(n: Node, n': Node) {
    n'.seqNo == n.seqNo && n'.info == n.info && n'.offlineSince == n.offlineSince
    && n'.host == n.host && n'.port == n.port
  }

  /** Load figures are those of `n`. */
  predicate SameLoad(n: Node, n': Node) {
    n'.cpu == n.cpu && n'.cpuSeq == n.cpuSeq
  }

  // --- CONSTRUCTORS ---

  /** `NodeDescriptor(nodeID, preferHostname, local)`: the field defaults. */
  function Blank(nodeID: string, preferHostname: bool, local: bool): (n: Node)
    ensures Consistent(n) && n.Online()
    ensures n.nodeID == nodeID && n.local == local && n.preferHostname == preferHostname
    ensures n.seqNo == 0 && n.cpuSeq == 0 && n.info.IsEmpty()
    ensures n.host == [] && n.port == 0 && n.cpu == 0 && n.cpuWhen == 0
  {
    Node(nodeID, local, preferHostname, "", 0, Empty, 0, 0, 0, 0, 0)
  }

  /**
   * `NodeDescriptor(nodeID, preferHostname, host, port)`: rejects a port
   * below 1 first, then a null host; an empty host is accepted.
   */
  function FromAddress(nodeID: string, preferHostname: bool, host: Option<string>, port: int): (r: Result<Node, NodeError>)
    ensures port < 1 ==> r == Err(InvalidPort(port))
    ensures port >= 1 && host.None? ==> r == Err(NullHost)
    ensures r.Ok? <==> port >= 1 && host.Some?
    ensures r.Ok? ==> && Consistent(r.value) && r.value.Online() && !r.value.local
                      && r.value.nodeID == nodeID && r.value.host == host.value
                      && r.value.port == port && r.value.seqNo == 0
                      && r.value.preferHostname == preferHostname
                      && r.value.info.IsEmpty()
                      && r.value.cpu == 0 && r.value.cpuSeq == 0 && r.value.cpuWhen == 0
  {
    if port < 1 then Err(InvalidPort(port))
    else if host.None? then Err(NullHost)
    else Ok(Blank(nodeID, preferHostname, false).(host := host.value, port := port))
  }

  /**
   * `NodeDescriptor(nodeID, preferHostname, local, info)`: the info must be
   * present and non-empty and name a host or IP address and a port of at
   * least 1; `seq` is read from the info, whatever its value.
   */
  function FromInfo(nodeID: string, preferHostname: bool, local: bool, info: Option<Tree>): (r: Result<Node, NodeError>)
    ensures info.None? || info.value.IsEmpty() ==> r == Err(InfoRequired)
    ensures r.Ok? <==> && info.Some? && !info.value.IsEmpty()
                       && (HasHostname(info.value) || HasIP(info.value))
                       && info.value.Port() >= 1
    ensures r.Ok? ==> && Consistent(r.value) && r.value.Online()
                      && r.value.nodeID == nodeID && r.value.local == local
                      && r.value.preferHostname == preferHostname
                      && r.value.cpu == 0 && r.value.cpuSeq == 0 && r.value.cpuWhen == 0
                      && r.value.info == info.value
                      && r.value.seqNo == info.value.Seq()
                      && r.value.port == info.value.Port()
                      && r.value.host != []
                      && Some(r.value.host) == GetHostOrIP(preferHostname, info.value)
  {
    if info.None? || info.value.IsEmpty() then Err(InfoRequired)
    else
      var t := info.value;
      var host := GetHostOrIP(preferHostname, t);
      if host.None? then Err(NullHost)
      else if t.Port() < 1 then Err(InvalidPort(t.Port()))
      else Ok(Blank(nodeID, preferHostname, local).(info := t, host := host.value, port := t.Port(), seqNo := t.Seq()))
  }

  // --- UPDATE CPU ---

  /**
   * `updateCpu(cpu)`: a local load sample. The load version goes up by one
   * exactly when the value changes; the sample time is refreshed either way.
   */
  function UpdateCpu(n: Node, cpu: int, now: Millis): (r: Result<Node, NodeError>)
    ensures r.Err? <==> cpu < 0 || cpu > 100
    ensures r.Err? ==> r.error == InvalidCpu(cpu)
    ensures r.Ok? ==> && r.value.cpu == cpu
                      && r.value.cpuSeq == (if n.cpu != cpu then n.cpuSeq + 1 else n.cpuSeq)
                      && r.value.cpuWhen == now
                      && SamePresence(n, r.value)
  {
    if cpu < 0 || cpu > 100 then Err(InvalidCpu(cpu))
    else if n.cpu != cpu then Ok(n.(cpu := cpu, cpuSeq := n.cpuSeq + 1, cpuWhen := now))
    else Ok(n.(cpuWhen := now))
  }

  /**
   * `updateCpu(cpuSeq, cpu)`: a remote load report, adopted only when its
   * version is strictly newer than the stored one.
   */
  function UpdateCpuSeq(n: Node, cpuSeq: int, cpu: int, now: Millis): (r: Result<Node, NodeError>)
    ensures r.Err? <==> cpu < 0 || cpu > 100 || cpuSeq < 1
    ensures (cpu < 0 || cpu > 100) ==> r == Err(InvalidCpu(cpu))
    ensures 0 <= cpu <= 100 && cpuSeq < 1 ==> r == Err(InvalidCpuSeq(cpuSeq))
    ensures r.Ok? && n.cpuSeq < cpuSeq ==> r.value == n.(cpuSeq := cpuSeq, cpu := cpu, cpuWhen := now)
    ensures r.Ok? && cpuSeq <= n.cpuSeq ==> r.value == n
  {
    if cpu < 0 || cpu > 100 then Err(InvalidCpu(cpu))
    else if cpuSeq < 1 then Err(InvalidCpuSeq(cpuSeq))
    else if n.cpuSeq < cpuSeq then Ok(n.(cpuSeq := cpuSeq, cpu := cpu, cpuWhen := now))
    else Ok(n)
  }

  // --- MARK AS OFFLINE ---

  /**
   * `markAsOffline()`: an online node goes offline under a new presence
   * version, one above the old, which the info document mirrors.
   */
  function MarkAsOffline(n: Node, now: Millis): (r: Step)
    ensures r.changed <==> n.Online()
    ensures !r.changed ==> r.node == n
    ensures r.changed ==> && !r.node.Online()
                          && r.node.seqNo == n.seqNo + 1
                          && r.node.info == n.info.PutSeq(n.seqNo + 1)
                          && r.node.offlineSince == now
                          && SameLoad(n, r.node) && r.node.cpuWhen == n.cpuWhen
                          && r.node.host == n.host && r.node.port == n.port
                          && SameIdentity(n, r.node)
  {
    if n.offlineSince == 0 then
      Step(n.(offlineSince := now, seqNo := n.seqNo + 1, info := n.info.PutSeq(n.seqNo + 1)), true)
    else Step(n, false)
  }

  /**
   * `markAsOffline(seq)`: an offline report, adopted only when its version
   * is strictly newer; it answers true only when it also takes the node
   * from online to offline.
   */
  function MarkAsOfflineSeq(n: Node, seqNo: int, now: Millis): (r: Result<Step, NodeError>)
    ensures r.Err? <==> seqNo < 1
    ensures r.Err? ==> r.error == InvalidSeq(seqNo)
    ensures r.Ok? ==> (r.value.changed <==> n.seqNo < seqNo && n.Online())
    ensures r.Ok? && seqNo <= n.seqNo ==> r.value.node == n
    ensures r.Ok? && n.seqNo < seqNo ==> && r.value.node.seqNo == seqNo
                                         && r.value.node.info == n.info.PutSeq(seqNo)
                                         && !r.value.node.Online()
                                         && SameLoad(n, r.value.node) && r.value.node.cpuWhen == n.cpuWhen
                                         && r.value.node.host == n.host && r.value.node.port == n.port
                                         && SameIdentity(n, r.value.node)
    ensures r.Ok? && n.seqNo < seqNo && n.Online() ==> r.value.node.offlineSince == now
    ensures r.Ok? && n.seqNo < seqNo && !n.Online() ==> r.value.node.offlineSince == n.offlineSince
  {
    if seqNo < 1 then Err(InvalidSeq(seqNo))
    else if n.seqNo < seqNo then
      var n' := n.(seqNo := seqNo, info := n.info.PutSeq(seqNo));
      if n.offlineSince == 0 then Ok(Step(n'.(offlineSince := now), true))
      else Ok(Step(n', false))
    else Ok(Step(n, false))
  }

  // --- MARK AS ONLINE ---

  /**
   * The checks `markAsOnline` makes of a newer info document: non-empty,
   * naming a host or IP address, and a port of at least 1.
   */
  predicate AcceptableInfo(preferHostname: bool, t: Tree) {
    && !t.IsEmpty()
    && GetHostOrIP(preferHostname, t).Some?
    && t.Port() >= 1
  }

  /**
   * `markAsOnline(info)`: an online report, adopted only when its version is
   * strictly newer; a null info fails when its `seq` is read.
   */
  function MarkAsOnline(n: Node, info: Option<Tree>, now: Millis): (r: Result<Step, NodeError>)
    ensures info.None? ==> r == Err(NullInfo)
    ensures info.Some? && info.value.Seq() < 1 ==> r == Err(InvalidSeq(info.value.Seq()))
    ensures r.Ok? <==> && info.Some? && info.value.Seq() >= 1
                       && (n.seqNo < info.value.Seq() ==> AcceptableInfo(n.preferHostname, info.value))
    ensures r.Ok? ==> (r.value.changed <==> n.seqNo < info.value.Seq())
    ensures r.Ok? && !r.value.changed ==> r.value.node == n
    ensures r.Ok? && r.value.changed ==> && r.value.node.Online()
                                         && r.value.node.seqNo == info.value.Seq()
                                         && r.value.node.info == info.value
                                         && r.value.node.port == info.value.Port()
                                         && Some(r.value.node.host) == GetHostOrIP(n.preferHostname, info.value)
                                         && SameLoad(n, r.value.node)
                                         && r.value.node.cpuWhen == now
                                         && SameIdentity(n, r.value.node)
  {
    if info.None? then Err(NullInfo)
    else
      var t := info.value;
      var s := t.Seq();
      if s < 1 then Err(InvalidSeq(s))
      else if n.seqNo < s then
        if t.IsEmpty() then Err(EmptyInfo)
        else
          var host := GetHostOrIP(n.preferHostname, t);
          if host.None? || host.value == [] then Err(EmptyHost)
          else if t.Port() < 1 then Err(InvalidPort(t.Port()))
          else Ok(Step(n.(seqNo := s, info := t, offlineSince := 0, host := host.value, port := t.Port(), cpuWhen := now), true))
      else Ok(Step(n, false))
  }

  /**
   * The empty-info check of `markAsOnline` never fires: a document whose
   * `seq` passed the first check has a "seq" entry, so it is not empty.
   */
  lemma MarkAsOnlineNeverEmptyInfo(n: Node, info: Option<Tree>, now: Millis)
    ensures MarkAsOnline(n, info, now) != Err(EmptyInfo)
  {
  }

  // --- OPERATIONS AS ONE STATE MACHINE ---

  datatype Op =
    | SetCpu(cpu: int)
    | SetCpuSeq(cpuSeq: int, newCpu: int)
    | GoOffline
    | GoOfflineAt(seqNo: int)
    | GoOnline(info: Option<Tree>)

  /**
   * One mutator call on a descriptor: the record afterwards, and the error
   * when the call threw. A call that throws leaves the record as it was.
   */
  datatype Outcome = Outcome(node: Node, error: Option<NodeError>)

  function Apply(n: Node, op: Op, now: Millis): Outcome
  {
    match op
    case SetCpu(cpu) =>
      (match UpdateCpu(n, cpu, now)
       case Ok(n') => Outcome(n', None)
       case Err(e) => Outcome(n, Some(e)))
    case SetCpuSeq(cs, cpu) =>
      (match UpdateCpuSeq(n, cs, cpu, now)
       case Ok(n') => Outcome(n', None)
       case Err(e) => Outcome(n, Some(e)))
    case GoOffline => Outcome(MarkAsOffline(n, now).node, None)
    case GoOfflineAt(s) =>
      (match MarkAsOfflineSeq(n, s, now)
       case Ok(st) => Outcome(st.node, None)
       case Err(e) => Outcome(n, Some(e)))
    case GoOnline(info) =>
      (match MarkAsOnline(n, info, now)
       case Ok(st) => Outcome(st.node, None)
       case Err(e) => Outcome(n, Some(e)))
  }

  /**
   * Every mutator keeps the record consistent and never moves either version
   * counter back. That a throwing call changes nothing is encoded by the
   * `Result` shape of the mutators: each Java method makes all its checks
   * before its first assignment, so an error carries no new record and
   * `Apply` keeps the old one.
   */
  lemma ApplyStep(n: Node, op: Op, now: Millis)
    requires Consistent(n)
    ensures var o := Apply(n, op, now);
      && Consistent(o.node)
      && Evolves(n, o.node)
      && (o.error.Some? ==> o.node == n)
  {
  }

  /** A sequence of mutator calls, the i-th at clock reading `clock[i]`. */
  function Run(n: Node, ops: seq<Op>, clock: seq<Millis>): Node
    requires |ops| == |clock|
    decreases |ops|
  {
    if ops == [] then n else Run(Apply(n, ops[0], clock[0]).node, ops[1..], clock[1..])
  }

  /** Whatever the calls and their order, consistency holds and no version counter decreases. */
  lemma {:induction false} RunEvolves(n: Node, ops: seq<Op>, clock: seq<Millis>)
    requires |ops| == |clock|
    requires Consistent(n)
    ensures Consistent(Run(n, ops, clock))
    ensures Evolves(n, Run(n, ops, clock))
    decreases |ops|
  {
    if ops != [] {
      ApplyStep(n, ops[0], clock[0]);
      RunEvolves(Apply(n, ops[0], clock[0]).node, ops[1..], clock[1..]);
    }
  }

  // --- REPLAYED REPORTS ---

  /** Receiving the same load report twice changes nothing the second time. */
  lemma UpdateCpuSeqIdempotent(n: Node, cpuSeq: int, cpu: int, now: Millis, later: Millis)
    requires UpdateCpuSeq(n, cpuSeq, cpu, now).Ok?
    ensures var n' := UpdateCpuSeq(n, cpuSeq, cpu, now).value;
      UpdateCpuSeq(n', cpuSeq, cpu, later) == Ok(n')
  {
  }

  /** Receiving the same offline report twice changes nothing the second time. */
  lemma MarkAsOfflineSeqIdempotent(n: Node, seqNo: int, now: Millis, later: Millis)
    requires MarkAsOfflineSeq(n, seqNo, now).Ok?
    ensures var n' := MarkAsOfflineSeq(n, seqNo, now).value.node;
      MarkAsOfflineSeq(n', seqNo, later) == Ok(Step(n', false))
  {
  }

  /** Receiving the same online report twice changes nothing the second time. */
  lemma MarkAsOnlineIdempotent(n: Node, info: Tree, now: Millis, later: Millis)
    requires MarkAsOnline(n, Some(info), now).Ok?
    ensures var n' := MarkAsOnline(n, Some(info), now).value.node;
      MarkAsOnline(n', Some(info), later) == Ok(Step(n', false))
  {
  }

  /** An offline node stays offline under `markAsOffline()` and its version stays put. */
  lemma MarkAsOfflineTwice(n: Node, now: Millis, later: Millis)
    ensures var n' := MarkAsOffline(n, now).node;
      MarkAsOffline(n', later) == Step(n', false)
  {
  }

  // --- THE DESCRIPTOR SEQUENCE OF THE GOSSIP TESTS ---

  /** The info document the gossip tests build for an online node. */
  function TestInfo(name: string): Tree {
    Tree(Some(1), Some(name), None, Some(1), false)
  }

  /**
   * The load updates, offline transition and rejected inputs that the gossip
   * tests apply to the descriptors of "node2" and "node3".
   */
  lemma GossipTestSequence(now: Millis)
    ensures var n2 := FromInfo("node2", true, false, Some(TestInfo("node2")));
      && n2.Ok? && n2.value.seqNo == 1 && n2.value.cpuSeq == 0 && n2.value.cpu == 0
      && var a := UpdateCpu(n2.value, 2, now);
      && a.Ok? && a.value.cpuSeq == 1 && a.value.cpu == 2
      && var b := UpdateCpuSeq(a.value, 5, 4, now);
      && b.Ok? && b.value.cpuSeq == 5 && b.value.cpu == 4
      && var c := UpdateCpuSeq(b.value, 4, 3, now);
      && c == Ok(b.value)
      && UpdateCpu(c.value, -1, now).Err?
      && UpdateCpu(c.value, 101, now).Err?
      && UpdateCpuSeq(c.value, 0, 50, now).Err?
      && UpdateCpuSeq(c.value, 10, 200, now).Err?
      && UpdateCpuSeq(c.value, 0, 0, now).Err?
      && MarkAsOnline(c.value, None, now).Err?
      && MarkAsOnline(c.value, Some(Empty), now).Err?
    ensures var n3 := FromInfo("node3", true, false, Some(TestInfo("node3")));
      && n3.Ok?
      && var off := MarkAsOffline(n3.value, now);
      && off.changed && off.node.seqNo == 2 && !off.node.Online()
  {
  }
}

=== FILE: remote_action_endpoint.dfy ===
/**
 * Dispatch of a call to an action on another node: the pending call is
 * registered with its absolute deadline, then the request is sent, and the
 * chunks of an attached stream are relayed as numbered data, error and
 * close packets. The registry and the transporter are modelled by the list
 * of calls made on them.
 */
module RemoteActionEndpoint {
  import opened Base
  import opened CallOptions
  import opened Context

  type Bytes = seq<bv8>

  /** A call made on the registry or on the transporter. */
  datatype Event =
    | Register(ctxID: string, timeoutAt: int)
    | SendRequest(nodeID: string, ctxID: string)
    | SendData(nodeID: string, ctxID: string, bytes: Bytes, seqNo: nat)
    | SendError(nodeID: string, ctxID: string, cause: string, seqNo: nat)
    | SendClose(nodeID: string, ctxID: string, seqNo: nat)
  {
    predicate IsStreamPacket() {
      SendData? || SendError? || SendClose?
    }
  }

  /** The absolute deadline of a remote call, 0 when it has none. */
  function TimeoutAt(opts: Option<Options>, now: Millis): (t: int)
    ensures t == 0 <==> !TimeoutApplies(opts)
    ensures t != 0 ==> t == now + opts.value.timeout && t > now
  {
    if opts.Some? && opts.value.timeout > 0 then now + opts.value.timeout else 0
  }

  /**
   * The `current` handler: the pending entry is registered under the
   * context's id, with its deadline, before the request goes out.
   */
  function Dispatch(nodeID: string, ctx: Context, now: Millis): (events: seq<Event>)
    ensures |events| == 2
    ensures events[0].Register? && events[0].ctxID == ctx.id
    ensures events[0].timeoutAt == TimeoutAt(ctx.opts, now)
    ensures events[1] == SendRequest(nodeID, ctx.id)
  {
    [Register(ctx.id, TimeoutAt(ctx.opts, now)), SendRequest(nodeID, ctx.id)]
  }

  /** One callback of the stream listener: a chunk, a failure cause, and the end flag. */
  datatype Packet = Packet(bytes: Option<Bytes>, cause: Option<string>, close: bool)

  /**
   * `onPacket`: bytes are sent as a data packet, otherwise a cause as an
   * error packet; a close packet follows when the stream ends. Each packet
   * sent takes the next number of the listener's counter.
   */
  function OnPacket(nodeID: string, ctxID: string, counter: nat, p: Packet): (r: (nat, seq<Event>))
    ensures r.0 == counter + |r.1|
    ensures forall k :: 0 <= k < |r.1| ==>
      && r.1[k].IsStreamPacket() && r.1[k].seqNo == counter + 1 + k
      && r.1[k].nodeID == nodeID && r.1[k].ctxID == ctxID
    ensures p.bytes.Some? ==> |r.1| >= 1 && r.1[0] == SendData(nodeID, ctxID, p.bytes.value, counter + 1)
    ensures forall k :: 0 <= k < |r.1| ==> (r.1[k].SendError? <==> p.bytes.None? && p.cause.Some? && k == 0)
    ensures p.close <==> |r.1| >= 1 && r.1[|r.1| - 1].SendClose?
    ensures r.1 == [] <==> p.bytes.None? && p.cause.None? && !p.close
    ensures |r.1| == (if p.bytes.Some? || p.cause.Some? then 1 else 0) + (if p.close then 1 else 0)
    ensures p.bytes.None? && p.cause.Some? ==> r.1[0] == SendError(nodeID, ctxID, p.cause.value, counter + 1)
    ensures p.close ==> r.1[|r.1| - 1] == SendClose(nodeID, ctxID, counter + |r.1|)
  {
    var first :=
      if p.bytes.Some? then [SendData(nodeID, ctxID, p.bytes.value, counter + 1)]
      else if p.cause.Some? then [SendError(nodeID, ctxID, p.cause.value, counter + 1)]
      else [];
    var c := counter + |first|;
    var last := if p.close then [SendClose(nodeID, ctxID, c + 1)] else [];
    (c + |last|, first + last)
  }

  /** Every callback of one stream in order, starting from counter `counter`. */
  function Relay(nodeID: string, ctxID: string, counter: nat, packets: seq<Packet>): (r: (nat, seq<Event>))
    decreases |packets|
  {
    if packets == [] then (counter, [])
    else
      var (c1, e1) := OnPacket(nodeID, ctxID, counter, packets[0]);
      var (c2, e2) := Relay(nodeID, ctxID, c1, packets[1..]);
      (c2, e1 + e2)
  }

  /**
   * Stream packets relayed for one call are numbered consecutively from one
   * above the starting counter, with no gap and no repeat, and the counter
   * ends at the last number used.
   */
  lemma {:induction false} RelayNumbersConsecutively(nodeID: string, ctxID: string, counter: nat, packets: seq<Packet>)
    ensures var r := Relay(nodeID, ctxID, counter, packets);
      && r.0 == counter + |r.1|
      && forall k :: 0 <= k < |r.1| ==>
           && r.1[k].IsStreamPacket() && r.1[k].seqNo == counter + 1 + k
           && r.1[k].nodeID == nodeID && r.1[k].ctxID == ctxID
    decreases |packets|
  {
    if packets != [] {
      var (c1, e1) := OnPacket(nodeID, ctxID, counter, packets[0]);
      RelayNumbersConsecutively(nodeID, ctxID, c1, packets[1..]);
      var (c2, e2) := Relay(nodeID, ctxID, c1, packets[1..]);
      var es := e1 + e2;
      forall k | 0 <= k < |es|
        ensures es[k].IsStreamPacket() && es[k].seqNo == counter + 1 + k
        ensures es[k].nodeID == nodeID && es[k].ctxID == ctxID
      {
        if k >= |e1| {
          assert es[k] == e2[k - |e1|];
        }
      }
    }
  }

  /** The whole remote call: dispatch, then the relay of the attached stream, if any. */
  function RemoteCall(nodeID: string, ctx: Context, now: Millis, packets: seq<Packet>): seq<Event>
  {
    Dispatch(nodeID, ctx, now) + (if ctx.hasStream then Relay(nodeID, ctx.id, 0, packets).1 else [])
  }

  /**
   * In a remote call the pending entry is registered first and the request
   * sent second; every later event is a stream packet, numbered 1, 2, 3, ...
   * and all of them are addressed to the target node under the call's id.
   */
  lemma RemoteCallOrder(nodeID: string, ctx: Context, now: Millis, packets: seq<Packet>)
    ensures var es := RemoteCall(nodeID, ctx, now, packets);
      && |es| >= 2
      && es[0] == Register(ctx.id, TimeoutAt(ctx.opts, now))
      && es[1] == SendRequest(nodeID, ctx.id)
      && (forall k :: 2 <= k < |es| ==>
            && es[k].IsStreamPacket() && es[k].seqNo == k - 1
            && es[k].nodeID == nodeID && es[k].ctxID == ctx.id)
      && (!ctx.hasStream ==> |es| == 2)
  {
    if ctx.hasStream {
      RelayNumbersConsecutively(nodeID, ctx.id, 0, packets);
      var es := RemoteCall(nodeID, ctx, now, packets);
      var rel := Relay(nodeID, ctx.id, 0, packets).1;
      forall k | 2 <= k < |es|
        ensures es[k].IsStreamPacket() && es[k].seqNo == k - 1
        ensures es[k].nodeID == nodeID && es[k].ctxID == ctx.id
      {
        assert es[k] == rel[k - 2];
      }
    }
  }

  /** A callback carrying bytes sends a data packet and never an error packet, even with a cause. */
  lemma BytesWinOverCause(nodeID: string, ctxID: string, counter: nat, bytes: Bytes, cause: string, close: bool)
    ensures var r := OnPacket(nodeID, ctxID, counter, Packet(Some(bytes), Some(cause), close));
      && r.1[0] == SendData(nodeID, ctxID, bytes, counter + 1)
      && (forall k :: 0 <= k < |r.1| ==> !r.1[k].SendError?)
      && (close ==> r.1 == [SendData(nodeID, ctxID, bytes, counter + 1), SendClose(nodeID, ctxID, counter + 2)])
  {
  }
}

=== FILE: text.dfy ===
/**
 * The few `java.lang.String` operations the core relies on, on `seq<char>`:
 * `trim`, `split` on a single separator character, and the matching join.
 */
module Text {

  /** `String.trim` removes every leading and trailing char whose code is at most U+0020. */
  predicate IsBlank(c: char) {
    c <= ' '
  }

  /** A string that `trim` leaves as it is. */
  predicate IsTrimmed(s: string) {
    s == [] || (!IsBlank(s[0]) && !IsBlank(s[|s| - 1]))
  }

  /** The number of blank chars `s` starts with. */
  function LeadingBlanks(s: string): (n: nat)
    ensures n <= |s|
    ensures forall i :: 0 <= i < n ==> IsBlank(s[i])
    ensures n == |s| || !IsBlank(s[n])
  {
    if s == [] || !IsBlank(s[0]) then 0 else 1 + LeadingBlanks(s[1..])
  }

  function TrimRight(s: string): (r: string)
    ensures |r| <= |s| && r == s[..|r|]
    ensures r == [] || !IsBlank(r[|r| - 1])
    ensures forall i :: |r| <= i < |s| ==> IsBlank(s[i])
  {
    if s == [] || !IsBlank(s[|s| - 1]) then s else TrimRight(s[..|s| - 1])
  }

  /**
   * `String.trim`: the slice of `s` left after cutting off its leading
   * blanks and then its trailing blanks.
   */
  function Trim(s: string): (r: string)
    ensures IsTrimmed(r)
    ensures LeadingBlanks(s) + |r| <= |s|
    ensures r == s[LeadingBlanks(s)..LeadingBlanks(s) + |r|]
  {
    var n := LeadingBlanks(s);
    var r := TrimRight(s[n..]);
    assert r == s[n..n + |r|];
    r
  }

  lemma TrimOfTrimmed(s: string)
    requires IsTrimmed(s)
    ensures Trim(s) == s
  {
  }

  /**
   * Every piece of `s` between separators, trailing empty pieces included.
   * `String.split` drops trailing empty pieces; every caller here drops all
   * empty pieces afterwards, so the difference never shows.
   */
  function Split(s: string, sep: char): (r: seq<string>)
    ensures |r| >= 1
    ensures forall k :: 0 <= k < |r| ==> sep !in r[k]
    decreases |s|
  {
    if s == [] then [[]]
    else
      var rest := Split(s[1..], sep);
      if s[0] == sep then [[]] + rest else [[s[0]] + rest[0]] + rest[1..]
  }

  /** The pieces put back together with one separator between neighbours. */
  function Join(xs: seq<string>, sep: char): string
    requires |xs| >= 1
  {
    if |xs| == 1 then xs[0] else xs[0] + [sep] + Join(xs[1..], sep)
  }

  lemma {:induction false} SplitNoSeparator(s: string, sep: char)
    requires sep !in s
    ensures Split(s, sep) == [s]
    decreases |s|
  {
    if s != [] {
      SplitNoSeparator(s[1..], sep);
      assert [s[0]] + s[1..] == s;
    }
  }

  lemma {:induction false} SplitPiece(x: string, sep: char, rest: string)
    requires sep !in x
    ensures Split(x + [sep] + rest, sep) == [x] + Split(rest, sep)
    decreases |x|
  {
    var s := x + [sep] + rest;
    if x == [] {
      assert s[1..] == rest;
    } else {
      assert s[1..] == x[1..] + [sep] + rest;
      SplitPiece(x[1..], sep, rest);
      assert [s[0]] + x[1..] == x;
    }
  }

  /** Splitting undoes joining when no piece holds the separator. */
  lemma {:induction false} SplitJoin(xs: seq<string>, sep: char)
    requires |xs| >= 1
    requires forall k :: 0 <= k < |xs| ==> sep !in xs[k]
    ensures Split(Join(xs, sep), sep) == xs
    decreases |xs|
  {
    if |xs| == 1 {
      SplitNoSeparator(xs[0], sep);
    } else {
      SplitJoin(xs[1..], sep);
      SplitPiece(xs[0], sep, Join(xs[1..], sep));
      assert [xs[0]] + xs[1..] == xs;
    }
  }
}

=== FILE: xorshift.dfy ===
/**
 * The XORSHIFT random selection strategy: one xorshift step on the shared
 * 64-bit state, the new state reduced to an index of the endpoint array.
 * The compare-and-set retry loop is taken as one atomic step.
 */
module XorShift {

  function Mix21(n: bv64): bv64 { n ^ (n << 21) }
  function Mix35(a: bv64): bv64 { a ^ (a >> 35) }
  function Mix4(b: bv64): bv64 { b ^ (b << 4) }

  /** `next = start + 1; next ^= next << 21; next ^= next >>> 35; next ^= next << 4`, all mod 2^64. */
  function Step(x: bv64): bv64
  {
    Mix4(Mix35(Mix21(x + 1)))
  }

  /** The inverse of `y = x ^ (x << 4)`. */
  function UnshiftLeft4(y: bv64): bv64 {
    var t := y ^ (y << 4);
    var u := t ^ (t << 8);
    var v := u ^ (u << 16);
    v ^ (v << 32)
  }

  /** The inverse of `y = x ^ (x >>> 35)`. */
  function UnshiftRight35(y: bv64): bv64 {
    y ^ (y >> 35)
  }

  /** The inverse of `y = x ^ (x << 21)`. */
  function UnshiftLeft21(y: bv64): bv64 {
    var t := y ^ (y << 21);
    t ^ (t << 42)
  }

  function Unstep(y: bv64): bv64 {
    UnshiftLeft21(UnshiftRight35(UnshiftLeft4(y))) - 1
  }

  lemma UnshiftLeft4Inverts(b: bv64)
    ensures UnshiftLeft4(Mix4(b)) == b
  {
    assert UnshiftLeft4(b ^ (b << 4)) == b;
  }

  lemma UnshiftRight35Inverts(a: bv64)
    ensures UnshiftRight35(Mix35(a)) == a
  {
    assert UnshiftRight35(a ^ (a >> 35)) == a;
  }

  lemma UnshiftLeft21Inverts(n: bv64)
    ensures UnshiftLeft21(Mix21(n)) == n
  {
    assert UnshiftLeft21(n ^ (n << 21)) == n;
  }

  /**
   * The state update is a bijection of 64-bit words: no two states lead to
   * the same next state, so the generator never collapses onto fewer states.
   */
  lemma StepInvertible(x: bv64)
    ensures Unstep(Step(x)) == x
  {
    var n := x + 1;
    UnshiftLeft4Inverts(Mix35(Mix21(n)));
    UnshiftRight35Inverts(Mix21(n));
    UnshiftLeft21Inverts(n);
  }

  lemma StepInjective(x: bv64, y: bv64)
    requires Step(x) == Step(y)
    ensures x == y
  {
    StepInvertible(x);
    StepInvertible(y);
  }

  const TwoTo63: int := 0x8000_0000_0000_0000
  const TwoTo64: int := 0x1_0000_0000_0000_0000

  /** The 64-bit word read as a Java `long` (two's complement). */
  function Signed(b: bv64): (v: int)
    ensures -TwoTo63 <= v < TwoTo63
    ensures v >= 0 ==> v == b as int
    ensures v < 0 ==> v + TwoTo64 == b as int
  {
    if b as int < TwoTo63 then b as int else b as int - TwoTo64
  }

  /** Java's `%`: truncating division, the remainder takes the dividend's sign. */
  function JavaRem(a: int, m: int): (r: int)
    requires m > 0
    ensures -m < r < m
    ensures a >= 0 ==> r >= 0
    ensures a < 0 ==> r <= 0
  {
    if a >= 0 then a % m else -((-a) % m)
  }

  function Abs(v: int): int {
    if v < 0 then -v else v
  }

  /**
   * `(int) Math.abs(next % length)`: the remainder lies strictly between
   * `-length` and `length`, so the absolute value is a valid index (the one
   * value `Math.abs` cannot negate, -2^63, never reaches it).
   */
  function Index(next: bv64, length: int): (i: int)
    requires length > 0
    ensures 0 <= i < length
    ensures i == Abs(Signed(next)) % length
  {
    Abs(JavaRem(Signed(next), length))
  }

  /**
   * `next(ctx, array)`: one xorshift step from the stored state; the new
   * state is stored and is the one that picks the endpoint, which is
   * always an element of the array.
   */
  function Next<T>(state: bv64, endpoints: seq<T>): (r: (bv64, T))
    requires |endpoints| > 0
    ensures r.0 == Step(state)
    ensures r.1 == endpoints[Index(r.0, |endpoints|)]
    ensures r.1 in endpoints
  {
    var next := Step(state);
    (next, endpoints[Index(next, |endpoints|)])
  }

  /** The states of `k` successive selections from `state`. */
  function Iterate(state: bv64, k: nat): bv64
    decreases k
  {
    if k == 0 then state else Iterate(Step(state), k - 1)
  }

  /** `k` successive selections from the endpoint array, each picking an element of it. */
  function Selections<T>(state: bv64, endpoints: seq<T>, k: nat): (r: seq<T>)
    requires |endpoints| > 0
    ensures |r| == k
    ensures forall j :: 0 <= j < k ==> r[j] in endpoints
    decreases k
  {
    if k == 0 then []
    else
      var (next, e) := Next(state, endpoints);
      [e] + Selections(next, endpoints, k - 1)
  }

  /** The j-th of successive selections uses the state j+1 steps on. */
  lemma {:induction false} SelectionsFollowTheStates<T>(state: bv64, endpoints: seq<T>, k: nat, j: nat)
    requires |endpoints| > 0 && j < k
    ensures Selections(state, endpoints, k)[j] == endpoints[Index(Iterate(state, j + 1), |endpoints|)]
    decreases k
  {
    if j > 0 {
      SelectionsFollowTheStates(Step(state), endpoints, k - 1, j - 1);
    }
  }
}
